=== FILE: README.md ===
# GitHub dashboard: derived views, modelled in Dafny

The dashboard signs a user in with GitHub, proxies a few read-only GitHub API
calls through an Express backend, and renders the results in the browser.
Underneath the wiring sit a handful of pure computations over the list of
repository records, and those are what this project models and proves:

- **Backend, `/api/repos`**: the projection of each upstream repository record
  onto the twenty fields the browser receives (`topics` defaulting to `[]`),
  and the `sort`/`per_page` query defaults.
- **Backend, `/api/stats`**: star and fork totals, the language histogram
  (repositories without a language skipped), its ranking by count and the
  top five, and the three counters copied from the user's profile.
- **Browser**: the search filter, the sort selector, the twelve project cards,
  the five most recently updated repositories, the relative-date text and the
  language colour table.

Layout, one module per file:

| file | module | what it holds |
|---|---|---|
| wrappers.dfy | `Wrappers` | `Option`, for JSON fields that may be `null` or absent |
| seqs.dfy | `Seqs` | `Array.prototype.filter`, `slice(0, n)`, sums, subsequences |
| sorting.dfy | `Sorting` | a stable insertion sort over a total preorder, standing for `Array.prototype.sort` |
| text.dfy | `Text` | `trim`, `toLowerCase`, `includes`, name order, decimal text |
| github.dfy | `GitHub` | upstream and projected repository records, the `/api/repos` projection and query defaults |
| stats.dfy | `Stats` | the `/api/stats` aggregation |
| views.dfy | `Views` | `filterRepositories`, `sortRepositories`, project cards, recent repositories |
| dates.dfy | `Dates` | `formatDate` on a whole-day count |
| colors.dfy | `Colors` | `getLanguageColor` |

Modelling choices:

- Timestamps are integers (milliseconds since the epoch). The code only subtracts
  the `Date` objects it builds from them, so only their order matters.
- `Array.prototype.sort` is stable, and `Object.entries` lists string keys in
  insertion order. So languages with equal counts are ranked in the order they
  were first seen in the repository list, and the model proves exactly that.
- Each comparator becomes a "may come first" relation: `(a, b) => b.x - a.x`
  becomes `a.x >= b.x`, and `a.name.localeCompare(b.name)` becomes `collate(a.name, b.name)`.
  The sort is proved correct for any total preorder.
- `formatDate` takes the whole-day count `diffDays` as input. That count is a
  `Math.ceil` of an absolute difference, so it is a natural number.
- The routes are `/api/repos` and `/api/stats` (backend/server.js:136 and 184).
  `sort` and `per_page` are passed on to GitHub unchanged (backend/server.js:138-149).
  Languages with equal counts keep first-occurrence order. Any upstream failure
  gives status 500 (backend/server.js:131, 179 and 234).
- `localeCompare` depends on the browser's locale, so the `name` sort takes the
  collation as a parameter `collate` and assumes only that it is a total preorder
  on names. Such a collation may tie distinct names (canonically equivalent
  spellings, for instance), and the stable sort keeps tied names in list order.
  Code-point order meets that assumption, which shows it can be met. It is not
  itself a possible `localeCompare`, which must tie canonically equivalent strings.

## Model

| member | source | states |
|---|---|---|
| `GitHub.Project` | backend/server.js:173 | `topics` becomes `[]` when the upstream record has none, and is copied when present |
| `GitHub.ProjectDependsOnListedFieldsOnly` | backend/server.js:153-174 | two upstream records give the same summary exactly when they agree on the twenty listed fields, so every other upstream field is dropped and none of the listed ones is |
| `GitHub.ProjectWiden` | backend/server.js:153-174 | every summary comes back unchanged from an upstream record that carries its fields, so each listed field is copied verbatim |
| `GitHub.ProjectAll` | backend/server.js:153-174 | the response has one summary per upstream record, in the upstream order |
| `GitHub.RepoListParams` | backend/server.js:138-149 | a missing `sort` becomes `updated` and a missing `per_page` becomes 100; supplied values are sent on as they are, with `type=all` |
| `GitHub.OmittedIsDefault` | backend/server.js:138 | leaving out a parameter gives the same upstream call as sending its default |
| `GitHub.SuppliedPassThrough` | backend/server.js:138-149 | when both parameters are supplied, two queries give the same upstream call only if they are equal, so nothing is clamped or rewritten |
| `Stats.Record` | backend/server.js:215 | recording a language adds one to its count (starting from 0 when absent), appends a new key at the end of the key order, and leaves every other key alone |
| `Stats.Tally` | backend/server.js:211-217 | the histogram is a well-formed object: each key occurs once in the key order, and the key order and the counts cover the same keys |
| `Stats.TallyCounts` | backend/server.js:213-217 | every key's count is the number of repositories whose language is exactly that key; a language counts if it occurs at least once; null, absent and empty languages count for nothing |
| `Stats.TallyOrder` | backend/server.js:211-217 | keys are in first-occurrence order, which is the order `Object.entries` lists them in |
| `Stats.Entries` | backend/server.js:225 | `Object.entries`: one entry per key, in key order, each carrying that key's count |
| `Stats.Ranking` | backend/server.js:226 | the sorted entries are a permutation of the entries with counts non-increasing |
| `Stats.RankingContents` | backend/server.js:225-226 | the ranked entries are the histogram's: each language once, non-empty, with its true count, and every occurring language present |
| `Stats.RankingTieOrder` | backend/server.js:225-226 | languages with equal counts stay in first-occurrence order, because the sort is stable |
| `Stats.TopLanguages` | backend/server.js:227 | the `languages` field has at most five entries |
| `Stats.TopLanguagesLength` | backend/server.js:225-227 | the field has as many entries as there are distinct languages, up to five |
| `Stats.TopLanguagesOrdered` | backend/server.js:225-227 | the counts in the field are non-increasing |
| `Stats.TopLanguagesCounted` | backend/server.js:213-227 | each entry names a non-empty language and carries the number of repositories written in it, which is at least 1 |
| `Stats.TopLanguagesDistinct` | backend/server.js:215-227 | no language is listed twice |
| `Stats.TopLanguagesAreBest` | backend/server.js:225-227 | a language left out of the top five has no more repositories than any language listed |
| `Stats.LanguagesExample` | backend/server.js:213-228 | languages JavaScript, JavaScript, Go, none, Go, JavaScript give `[{JavaScript, 3}, {Go, 2}]` |
| `Stats.ComputeStats` | backend/server.js:205-229 | the totals are the sums of `stargazers_count` and `forks_count` (0 for no repositories), computed left to right as `reduce` does; the three profile counters are copied; `languages` is the top five |
| `Seqs.SumAppend` | backend/server.js:209-210 | sums split over concatenation, which is why a left-to-right fold gives the sum |
| `Seqs.Filter` | frontend/script.js:303-307 | the kept elements form a subsequence of the input, and each value appears as often as in the input if it passes the test and not at all otherwise |
| `Sorting.Sort` | frontend/script.js:323 | sorting returns a permutation of its input |
| `Sorting.SortSorted` | frontend/script.js:323 | for any total preorder, the output is ordered by it |
| `Sorting.SortStable` | frontend/script.js:323 | for every element, the elements tied with it appear in the output in their input order |
| `Sorting.SortKeepsTieOrder` | backend/server.js:226 | when the input is in increasing order of some position, tied elements leave the sort in that order |
| `Seqs.Take` | frontend/script.js:337 | `slice(0, n)` keeps min(n, length) elements, and they are the first ones in order (also at frontend/script.js:157 and backend/server.js:227) |
| `Sorting.TakeOfSortedIsBest` | frontend/script.js:336-337 | an element cut off by `slice` from a sorted list ranks no higher than any element kept |
| `Text.Trim` | frontend/script.js:299 | `trim()` is a slice of the string whose prefix and suffix outside it are all ECMAScript white space, and which neither starts nor ends with white space; it is empty exactly when the string is all white space |
| `Text.LowerCase` | frontend/script.js:302 | the ASCII model of lower-casing keeps the length and maps each character on its own |
| `Text.Includes` | frontend/script.js:304-306 | `includes` is true exactly when the needle occurs as a slice of the haystack |
| `Text.LexLeTotal` | frontend/script.js:318 | any two names are comparable in code-point order |
| `Text.LexLeTransitive` | frontend/script.js:318 | code-point order on names is transitive |
| `Text.NatToString` | frontend/script.js:486-489 | a count's text is non-empty, all decimal digits, and has no leading zero |
| `Text.ParseNatToString` | frontend/script.js:486-489 | reading a count's text back gives the count |
| `Views.MatchesSearch` | frontend/script.js:303-307 | the `filter` callback holds exactly when the term occurs in the lower-cased name, or in the lower-cased description or language when that is truthy |
| `Views.FilterRepositories` | frontend/script.js:298-310 | a blank search term returns the whole list; otherwise the result is a subsequence holding exactly the repositories whose lower-cased name, or non-empty description, or non-empty language contains the lower-cased, untrimmed term, each as often as in the list |
| `Views.UntrimmedTermExample` | frontend/script.js:302-307 | the term is not trimmed before matching, so " go" misses a repository named "go" that "GO" finds |
| `Views.ParseSortKey` | frontend/script.js:314-322 | exactly the five keys updated, created, pushed, name and stars select a comparator |
| `Views.Comparator` | frontend/script.js:314-320 | the `sortFunctions` entry for a key is a total preorder whenever the name collation is one, and the `name` entry orders repositories by the collation of their names |
| `Views.ComparatorIsTotalPreorder` | frontend/script.js:314-320 | each of the five comparators is a total preorder when the name collation is one, so the sort contract applies |
| `Views.CodePointCollation` | frontend/script.js:318 | code-point order on names is a total preorder, so the assumption on the `name` sort's collation can be met |
| `Views.SortRepositories` | frontend/script.js:313-326 | the result is a permutation of the list, for any key and any collation, and an unknown key leaves the list unchanged |
| `Views.SortRepositoriesOrdered` | frontend/script.js:315-323 | under updated, created and pushed the dates are non-increasing, under stars the star counts are, and under name each name may precede every later one in the collation |
| `Views.SortRepositoriesStable` | frontend/script.js:323 | repositories the chosen comparator ties keep their list order |
| `Views.SortByNameTwo` | frontend/script.js:318-323 | of two repositories whose names the collation strictly orders, the `name` sort puts the earlier name first, from either list order |
| `Views.ProjectCards` | frontend/script.js:334-337 | at most twelve cards, no fork among them, each drawn from the list |
| `Views.ProjectCardsOrdered` | frontend/script.js:334-337 | the cards are in non-increasing order of stars |
| `Views.ProjectCardsLength` | frontend/script.js:334-337 | there are min(12, number of non-forks) cards |
| `Views.ProjectCardsBest` | frontend/script.js:334-337 | a non-fork left out has no more stars than any card shown |
| `Views.RecentRepositories` | frontend/script.js:155-157 | min(5, list length) repositories, each drawn from the list |
| `Views.RecentRepositoriesBest` | frontend/script.js:155-157 | they are newest first, and a repository left out was updated no later than any one shown |
| `Dates.CeilDiv` | frontend/script.js:487-489 | `Math.ceil(d / k)` is the least `q` with `d <= k * q` |
| `Dates.Bucket` | frontend/script.js:485-489 | 1 day is "yesterday"; other counts below 7 are shown in days, including 0; 7 to 29 in weeks (1 to 5); 30 to 364 in months (1 to 13); 365 and more in years; each unit count is the rounded-up quotient |
| `Dates.BucketMonotone` | frontend/script.js:485-489 | a larger day count never gets a smaller unit, nor a smaller number in the same unit |
| `Dates.BucketRollover` | frontend/script.js:487-489 | rounding up overshoots at the unit boundaries: 29 days read "5 weeks ago" (35 days) but 30 days "1 months ago", and 364 days read "13 months ago" but 365 days "1 years ago" |
| `Dates.Render` | frontend/script.js:485-489 | every template literal reads back through the independent parser `ParseAgo` as the age it shows, so different ages never share a text |
| `Dates.FormatDate` | frontend/script.js:479-490 | the text for a day count reads back as that count's bucket, and it is "yesterday" exactly for 1 day |
| `Dates.FormatDateDistinguishesBuckets` | frontend/script.js:485-489 | two day counts get the same text exactly when they fall in the same bucket |
| `Dates.FormatDateEdges` | frontend/script.js:485-489 | 0 days reads "0 days ago", 361 days is 13 months, 366 days is 2 years |
| `Colors.LanguageColorAsWritten` | frontend/script.js:492-514 | as written, the lookup returns the table colour for the 18 listed languages, and the default for other names that no object inherits; for inherited member names it returns the member |
| `Colors.AsWrittenReturnsNonColor` | frontend/script.js:513 | as written, "constructor" and the other inherited member names get something that is not a colour |
| `Colors.LanguageColor` | frontend/script.js:492-514 | the table colour for the 18 listed languages and `#586069` for any other name |
| `Colors.LanguageColorMatchesAsWritten` | frontend/script.js:513 | the intended lookup differs from the code exactly on the inherited member names |
| `Colors.PaletteIsHex` | frontend/script.js:493-512 | every table entry is a `#rrggbb` colour |
| `Colors.LanguageColorIsHex` | frontend/script.js:493-513 | every answer is a `#rrggbb` colour |
| `Colors.LanguageColorIdentifiesListed` | frontend/script.js:493-513 | the listed colours are distinct and differ from the default, so a listed language's colour identifies it |

## Left out

- Sign-in, sessions, logout and the session-status route (backend/server.js:22-55, 84-116 and 238-250): passport, express-session and the OAuth exchange live in libraries this model cannot see.
- The GitHub API calls, `Promise.all`, the browser's `fetch` calls and the mapping of any failure to status 500: these are network I/O and concurrency. Each modelled function takes the already-fetched data as a parameter.
- The repository call made by `/api/stats` (`per_page=100`, `type=all`, backend/server.js:193-202) is not modelled. The aggregation takes whatever list comes back, and GitHub applies the limit of 100 repositories.
- CORS, the body parsers, static file serving, the root and health routes, the error middleware and `app.listen` (backend/server.js:14-20, 57-82, and 252 to the end of the file): these are plumbing.
- All DOM work in the browser: HTML templates, tabs, modals, event listeners, export cards and keyboard shortcuts.
- The `Date` parsing and millisecond arithmetic at the start of `formatDate` (frontend/script.js:480-483): they involve the clock and floating point. The model starts from the day count.
- Stats.ComputeStats: the totals are exact integers. The source adds JavaScript numbers, which round above 2^53.
- Text.LowerCase: maps only ASCII `A`-`Z`. `toLowerCase` also maps the rest of Unicode. It can change the length ("İ", U+0130, becomes "i" followed by a combining dot). It depends on context (a final "Σ" becomes "ς"). The model does neither.
- Views.SortRepositoriesOrdered: under `name` the order is that of the collation parameter. No locale's actual `localeCompare` table is modelled, so the model says nothing about where, say, "apple" falls relative to "Banana".
- Text.Includes: strings are sequences of code points, whereas JavaScript indexes UTF-16 code units. Whether a substring occurs is the same either way.
- Stats.Tally: the histogram is a plain map. In the source it is an object literal. A language named after an inherited method, such as `constructor` or `toString`, would get a string in place of a count. A language named `__proto__` would be dropped, because assigning a non-object to `__proto__` is ignored.
- Stats.TallyOrder: `Object.entries` lists keys that look like array indices first, in numeric order. The model lists every key in insertion order. No language name is such a key.
- Views.ParseSortKey: `sortFunctions[sortBy]` would also find inherited member names. The selector never offers them.
- Views.RecentRepositories: the source sorts the page-level repository array in place (frontend/script.js:156), so views computed later see it reordered. The model is a pure function of the list it is given.
- Views.ProjectCards: when the list is empty the source returns without rendering (frontend/script.js:331). The model returns the empty selection.
- Views.RecentRepositories: when the list is empty the source returns without rendering (frontend/script.js:153). The model returns the empty list.
- Repeated query parameters, which Express turns into arrays, are not modelled.

## Findings

| source | as written | input that shows it | evidently intended | confidence | as-written member | corrected member |
|---|---|---|---|---|---|---|
| frontend/script.js:492-514 | `colors[language] \|\| '#586069'` looks the name up on an object literal, which also finds the members every object inherits | `getLanguageColor("constructor")` returns the `Object` function, not a colour string | `#586069` for every name that is not one of the 18 listed languages | not executed; the lookup certainly behaves so, but GitHub is unlikely ever to report such a language | `Colors.LanguageColorAsWritten` | `Colors.LanguageColor` |

=== FILE: colors.dfy ===
/** `getLanguageColor`: the dot colour shown next to a repository's language. */
module Colors {

  /** The colour table, keyed by language name. */
  const Palette: map<string, string> := map[
    "JavaScript" := "#f1e05a",
    "TypeScript" := "#2b7489",
    "Python" := "#3572A5",
    "Java" := "#b07219",
    "HTML" := "#e34c26",
    "CSS" := "#563d7c",
    "PHP" := "#4F5D95",
    "Ruby" := "#701516",
    "Go" := "#00ADD8",
    "Rust" := "#dea584",
    "Swift" := "#ffac45",
    "Kotlin" := "#F18E33",
    "C" := "#555555",
    "C++" := "#f34b7d",
    "C#" := "#239120",
    "Shell" := "#89e051",
    "Vue" := "#2c3e50",
    "React" := "#61dafb"]

  const DefaultColor: string := "#586069"

  /**
   * The property names every JavaScript object inherits from `Object.prototype`;
   * looking one of them up on the table's object literal finds a function (or,
   * for `__proto__`, the prototype object) rather than nothing.
   */
  const ObjectPrototypeMembers: set<string> := {
    "constructor", "__proto__", "hasOwnProperty", "isPrototypeOf", "propertyIsEnumerable",
    "toLocaleString", "toString", "valueOf", "__defineGetter__", "__defineSetter__",
    "__lookupGetter__", "__lookupSetter__"}

  predicate IsHexDigit(c: char) {
    ('0' <= c <= '9') || ('a' <= c <= 'f') || ('A' <= c <= 'F')
  }

  /** A CSS colour of the form `#rrggbb`. */
  predicate IsHexColor(s: string) {
    && |s| == 7 && s[0] == '#'
    && IsHexDigit(s[1]) && IsHexDigit(s[2]) && IsHexDigit(s[3])
    && IsHexDigit(s[4]) && IsHexDigit(s[5]) && IsHexDigit(s[6])
  }

  /** What `colors[language] || '#586069'` evaluates to, as the code is written. */
  datatype Lookup = Color(hex: string) | InheritedMember(name: string)

  function LanguageColorAsWritten(language: string): (v: Lookup)
    ensures language in Palette ==> v == Color(Palette[language])
    ensures language !in Palette && language !in ObjectPrototypeMembers ==> v == Color(DefaultColor)
    ensures language in ObjectPrototypeMembers ==> v.InheritedMember?
  {
    if language in Palette then Color(Palette[language])
    else if language in ObjectPrototypeMembers then InheritedMember(language)
    else Color(DefaultColor)
  }

  /** A language named "constructor" gets a function, not a colour, from the lookup as written. */
  lemma AsWrittenReturnsNonColor()
    ensures LanguageColorAsWritten("constructor") == InheritedMember("constructor")
    ensures forall lang :: lang in ObjectPrototypeMembers ==> !LanguageColorAsWritten(lang).Color?
  {
  }

  /** The lookup as intended: the table's colour for the 18 listed languages, the default for every other name. */
  function LanguageColor(language: string): (c: string)
    ensures language in Palette ==> c == Palette[language]
    ensures language !in Palette ==> c == DefaultColor
  {
    if language in Palette then Palette[language] else DefaultColor
  }

  /** The intended lookup agrees with the code everywhere except on the inherited member names. */
  lemma LanguageColorMatchesAsWritten(language: string)
    ensures LanguageColorAsWritten(language) == Color(LanguageColor(language)) <==> language !in ObjectPrototypeMembers
  {
  }

  lemma PaletteIsHex()
    ensures forall lang :: lang in Palette ==> IsHexColor(Palette[lang])
  {
    forall lang | lang in Palette ensures IsHexColor(Palette[lang]) {
    }
  }

  /** Every answer is a `#rrggbb` colour. */
  lemma LanguageColorIsHex(language: string)
    ensures IsHexColor(LanguageColor(language))
  {
    PaletteIsHex();
  }

  /** The table has distinct colours, none of them the default, so a listed language's colour identifies it. */
  lemma LanguageColorIdentifiesListed(a: string, b: string)
    requires a in Palette
    ensures LanguageColor(a) == LanguageColor(b) <==> a == b
  {
  }
}

=== FILE: dates.dfy ===
/**
 * `formatDate`: the relative age shown next to a repository. The day count
 * `diffDays` (the whole days, rounded up, between now and the timestamp) is the
 * input; the clock and the date parsing that produce it are not modelled.
 */
module Dates {

  import opened Wrappers
  import Text

  /** The five shapes of the returned text. */
  datatype Ago = Yesterday | DaysAgo(days: nat) | WeeksAgo(weeks: nat) | MonthsAgo(months: nat) | YearsAgo(years: nat)

  /** `Math.ceil(d / k)` for a non-negative `d`: the least `q` with `d <= k * q`. */
  function CeilDiv(d: nat, k: nat): (q: nat)
    requires k > 0
    ensures d <= k * q
    ensures k * q < d + k
  {
    (d + k - 1) / k
  }

  /** The branch chain of `formatDate`, tried in source order. */
  function Bucket(diffDays: nat): (a: Ago)
    ensures a == Yesterday <==> diffDays == 1
    ensures a.DaysAgo? <==> diffDays < 7 && diffDays != 1
    ensures a.DaysAgo? ==> a.days == diffDays
    ensures a.WeeksAgo? <==> 7 <= diffDays < 30
    ensures a.WeeksAgo? ==> 7 * a.weeks - 7 < diffDays <= 7 * a.weeks && 1 <= a.weeks <= 5
    ensures a.MonthsAgo? <==> 30 <= diffDays < 365
    ensures a.MonthsAgo? ==> 30 * a.months - 30 < diffDays <= 30 * a.months && 1 <= a.months <= 13
    ensures a.YearsAgo? <==> 365 <= diffDays
    ensures a.YearsAgo? ==> 365 * a.years - 365 < diffDays <= 365 * a.years && a.years >= 1
  {
    if diffDays == 1 then Yesterday
    else if diffDays < 7 then DaysAgo(diffDays)
    else if diffDays < 30 then WeeksAgo(CeilDiv(diffDays, 7))
    else if diffDays < 365 then MonthsAgo(CeilDiv(diffDays, 30))
    else YearsAgo(CeilDiv(diffDays, 365))
  }

  /** The template literal of each branch; every text reads back as the age it shows. */
  function Render(a: Ago): (s: string)
    ensures ParseAgo(s) == Some(a)
  {
    match a
    case Yesterday => "yesterday"
    case DaysAgo(n) => ParseRenderedCount(n, " days ago"); Text.NatToString(n) + " days ago"
    case WeeksAgo(n) => ParseRenderedCount(n, " weeks ago"); Text.NatToString(n) + " weeks ago"
    case MonthsAgo(n) => ParseRenderedCount(n, " months ago"); Text.NatToString(n) + " months ago"
    case YearsAgo(n) => ParseRenderedCount(n, " years ago"); Text.NatToString(n) + " years ago"
  }

  /** `formatDate` as a function of the day count: its text reads back as the bucket of that count. */
  function FormatDate(diffDays: nat): (s: string)
    ensures ParseAgo(s) == Some(Bucket(diffDays))
    ensures s == "yesterday" <==> diffDays == 1
  {
    Render(Bucket(diffDays))
  }

  /** The unit of a bucket, smallest first; "yesterday" counts as one day. */
  function UnitRank(a: Ago): nat {
    match a
    case Yesterday => 0
    case DaysAgo(_) => 0
    case WeeksAgo(_) => 1
    case MonthsAgo(_) => 2
    case YearsAgo(_) => 3
  }

  function Amount(a: Ago): nat {
    match a
    case Yesterday => 1
    case DaysAgo(n) => n
    case WeeksAgo(n) => n
    case MonthsAgo(n) => n
    case YearsAgo(n) => n
  }

  /**
   * Unit-first order on ages: `a` has a smaller unit than `b`, or the same unit
   * with no larger number. It is not the order of the days the texts name:
   * "5 weeks" names 35 days and "1 months" fewer.
   */
  predicate NoOlder(a: Ago, b: Ago) {
    UnitRank(a) < UnitRank(b) || (UnitRank(a) == UnitRank(b) && Amount(a) <= Amount(b))
  }

  /** A larger day count never gets a smaller unit, nor a smaller number in the same unit. */
  lemma BucketMonotone(d1: nat, d2: nat)
    requires d1 <= d2
    ensures NoOlder(Bucket(d1), Bucket(d2))
  {
  }

  /**
   * Rounding up overshoots at the unit boundaries: 29 days read as 5 weeks
   * (35 days) but 30 days as 1 month, and 364 days as 13 months but 365 days
   * as 1 year.
   */
  lemma BucketRollover()
    ensures Bucket(29) == WeeksAgo(5) && Bucket(30) == MonthsAgo(1)
    ensures Bucket(364) == MonthsAgo(13) && Bucket(365) == YearsAgo(1)
  {
  }

  /** The length of the run of decimal digits at the front of `s`. */
  function DigitPrefix(s: string): (n: nat)
    ensures n <= |s|
    ensures Text.AllDigits(s[..n])
    ensures n < |s| ==> !Text.IsDigit(s[n])
  {
    if |s| == 0 || !Text.IsDigit(s[0]) then 0
    else
      var n := 1 + DigitPrefix(s[1..]);
      assert s[..n] == [s[0]] + s[1..][..n - 1];
      n
  }

  lemma {:induction false} DigitPrefixOfDigits(ds: string, rest: string)
    requires Text.AllDigits(ds)
    requires |rest| > 0 && !Text.IsDigit(rest[0])
    ensures DigitPrefix(ds + rest) == |ds|
    decreases |ds|
  {
    if |ds| > 0 {
      assert (ds + rest)[1..] == ds[1..] + rest;
      DigitPrefixOfDigits(ds[1..], rest);
    } else {
      assert ds + rest == rest;
    }
  }

  /** Reads back the text `formatDate` produced. */
  function ParseAgo(s: string): Option<Ago> {
    if s == "yesterday" then Some(Yesterday)
    else
      var n := DigitPrefix(s);
      if n == 0 then None
      else
        var amount := Text.ParseDecimal(s[..n]);
        var unit := s[n..];
        if unit == " days ago" then Some(DaysAgo(amount))
        else if unit == " weeks ago" then Some(WeeksAgo(amount))
        else if unit == " months ago" then Some(MonthsAgo(amount))
        else if unit == " years ago" then Some(YearsAgo(amount))
        else None
  }

  lemma ParseRenderedCount(n: nat, unit: string)
    requires |unit| > 0 && unit[0] == ' '
    ensures DigitPrefix(Text.NatToString(n) + unit) == |Text.NatToString(n)|
    ensures (Text.NatToString(n) + unit)[..|Text.NatToString(n)|] == Text.NatToString(n)
    ensures (Text.NatToString(n) + unit)[|Text.NatToString(n)|..] == unit
    ensures Text.ParseDecimal(Text.NatToString(n)) == n
  {
    DigitPrefixOfDigits(Text.NatToString(n), unit);
    Text.ParseNatToString(n);
  }

  /** Two day counts show the same text exactly when they fall in the same bucket. */
  lemma FormatDateDistinguishesBuckets(d1: nat, d2: nat)
    ensures FormatDate(d1) == FormatDate(d2) <==> Bucket(d1) == Bucket(d2)
  {
  }

  /** Boundary cases of the chain: 0 days, 366 days and 361 days. */
  lemma FormatDateEdges()
    ensures FormatDate(0) == "0 days ago"
    ensures FormatDate(1) == "yesterday"
    ensures Bucket(361) == MonthsAgo(13)
    ensures Bucket(366) == YearsAgo(2)
  {
  }
}

=== FILE: github.dfy ===
/**
 * The provider's records and the backend's reshaping of them: the repository
 * projection served by `/api/repos` and the query defaults of that route.
 * Timestamps (`created_at`, `updated_at`, `pushed_at`) are modelled as integers
 * (milliseconds since the epoch); the dashboard only ever compares them.
 */
module GitHub {

  import opened Wrappers

  /** A repository as the provider returns it: the fields the dashboard reads, plus some it drops. */
  datatype UpstreamRepo = UpstreamRepo(
    id: int,
    name: string,
    fullName: string,
    description: Option<string>,
    htmlUrl: string,
    cloneUrl: string,
    language: Option<string>,
    stargazersCount: nat,
    forksCount: nat,
    watchersCount: nat,
    size: nat,
    defaultBranch: string,
    createdAt: int,
    updatedAt: int,
    pushedAt: int,
    isPrivate: bool,
    fork: bool,
    archived: bool,
    disabled: bool,
    topics: Option<seq<string>>,
    // dropped by the projection
    ownerLogin: string,
    homepage: Option<string>,
    openIssuesCount: nat,
    visibility: string)

  /** The repository summary the backend sends to the browser. */
  datatype Repo = Repo(
    id: int,
    name: string,
    fullName: string,
    description: Option<string>,
    htmlUrl: string,
    cloneUrl: string,
    language: Option<string>,
    stargazersCount: nat,
    forksCount: nat,
    watchersCount: nat,
    size: nat,
    defaultBranch: string,
    createdAt: int,
    updatedAt: int,
    pushedAt: int,
    isPrivate: bool,
    fork: bool,
    archived: bool,
    disabled: bool,
    topics: seq<string>)

  /** The authenticated user's profile, reduced to what the statistics copy. */
  datatype UpstreamUser = UpstreamUser(login: string, publicRepos: nat, followers: nat, following: nat)

  /** One element of the `map` in the `/api/repos` handler. */
  function Project(u: UpstreamRepo): (r: Repo)
    ensures u.topics.None? ==> r.topics == []
    ensures u.topics.Some? ==> r.topics == u.topics.value
  {
    Repo(u.id, u.name, u.fullName, u.description, u.htmlUrl, u.cloneUrl, u.language,
         u.stargazersCount, u.forksCount, u.watchersCount, u.size, u.defaultBranch,
         u.createdAt, u.updatedAt, u.pushedAt, u.isPrivate, u.fork, u.archived, u.disabled,
         u.topics.GetOr([]))
  }

  /** The two upstream records agree on every field the projection copies. */
  predicate SameListedFields(u: UpstreamRepo, v: UpstreamRepo) {
    && u.id == v.id && u.name == v.name && u.fullName == v.fullName
    && u.description == v.description && u.htmlUrl == v.htmlUrl && u.cloneUrl == v.cloneUrl
    && u.language == v.language && u.stargazersCount == v.stargazersCount
    && u.forksCount == v.forksCount && u.watchersCount == v.watchersCount && u.size == v.size
    && u.defaultBranch == v.defaultBranch && u.createdAt == v.createdAt
    && u.updatedAt == v.updatedAt && u.pushedAt == v.pushedAt && u.isPrivate == v.isPrivate
    && u.fork == v.fork && u.archived == v.archived && u.disabled == v.disabled
    && u.topics.GetOr([]) == v.topics.GetOr([])
  }

  /** Projection forgets exactly the dropped fields: records agreeing on the listed ones project alike, and only those. */
  lemma ProjectDependsOnListedFieldsOnly(u: UpstreamRepo, v: UpstreamRepo)
    ensures Project(u) == Project(v) <==> SameListedFields(u, v)
  {
  }

  /** An upstream record carrying a summary's fields, with the dropped fields set to `extra`'s. */
  function Widen(r: Repo, extra: UpstreamRepo): UpstreamRepo
  {
    extra.(id := r.id, name := r.name, fullName := r.fullName, description := r.description,
           htmlUrl := r.htmlUrl, cloneUrl := r.cloneUrl, language := r.language,
           stargazersCount := r.stargazersCount, forksCount := r.forksCount,
           watchersCount := r.watchersCount, size := r.size, defaultBranch := r.defaultBranch,
           createdAt := r.createdAt, updatedAt := r.updatedAt, pushedAt := r.pushedAt,
           isPrivate := r.isPrivate, fork := r.fork, archived := r.archived,
           disabled := r.disabled, topics := Some(r.topics))
  }

  /** Every summary is the projection of some upstream record, and the projection copies its fields back verbatim. */
  lemma ProjectWiden(r: Repo, extra: UpstreamRepo)
    ensures Project(Widen(r, extra)) == r
  {
  }

  /** The whole `map`: one summary per upstream record, in the same order. */
  function ProjectAll(us: seq<UpstreamRepo>): (rs: seq<Repo>)
    ensures |rs| == |us|
    ensures forall i :: 0 <= i < |us| ==> rs[i] == Project(us[i])
  {
    if |us| == 0 then [] else [Project(us[0])] + ProjectAll(us[1..])
  }

  /** JavaScript truthiness of an optional string: `null`, absent and `""` are falsy. */
  predicate Truthy(o: Option<string>) {
    o.Some? && o.value != ""
  }

  /** The query string of `/api/repos`; a parameter that is not present is `None`. */
  datatype RepoListQuery = RepoListQuery(sort: Option<string>, perPage: Option<string>)

  /** The parameters sent with a repository-list call to the provider. */
  datatype ListParams = ListParams(sort: string, perPage: string, kind: string)

  const DefaultSort: string := "updated"

  /** `per_page = 100`; the number is written as "100" in the outgoing query string. */
  const DefaultPerPage: string := "100"

  /** The destructuring defaults of the `/api/repos` handler and its outgoing parameters. */
  function RepoListParams(q: RepoListQuery): (p: ListParams)
    ensures p.kind == "all"
    ensures q.sort.None? ==> p.sort == DefaultSort
    ensures q.sort.Some? ==> p.sort == q.sort.value
    ensures q.perPage.None? ==> p.perPage == DefaultPerPage
    ensures q.perPage.Some? ==> p.perPage == q.perPage.value
  {
    ListParams(q.sort.GetOr(DefaultSort), q.perPage.GetOr(DefaultPerPage), "all")
  }

  /** Leaving a parameter out is the same as sending its default. */
  lemma OmittedIsDefault(sort: Option<string>, perPage: Option<string>)
    ensures RepoListParams(RepoListQuery(None, perPage)) == RepoListParams(RepoListQuery(Some(DefaultSort), perPage))
    ensures RepoListParams(RepoListQuery(sort, None)) == RepoListParams(RepoListQuery(sort, Some(DefaultPerPage)))
  {
  }

  /** Supplied values, empty or out of range, reach the provider unchanged; distinct queries send distinct parameters. */
  lemma SuppliedPassThrough(q1: RepoListQuery, q2: RepoListQuery)
    requires q1.sort.Some? && q1.perPage.Some? && q2.sort.Some? && q2.perPage.Some?
    ensures RepoListParams(q1) == RepoListParams(q2) <==> q1 == q2
  {
  }
}

=== FILE: seqs.dfy ===
/** Generic facts about sequences used by the list views and the statistics. */
module Seqs {

  /** `xs` can be obtained from `ys` by deleting elements, keeping the order of the rest. */
  predicate IsSubsequence<T(==)>(xs: seq<T>, ys: seq<T>)
    decreases |ys|
  {
    || |xs| == 0
    || (&& |ys| > 0
        && ((xs[0] == ys[0] && IsSubsequence(xs[1..], ys[1..])) || IsSubsequence(xs, ys[1..])))
  }

  /** `Array.prototype.filter`: the elements satisfying `p`, in their original order. */
  function Filter<T(==,!new)>(s: seq<T>, p: T -> bool): (r: seq<T>)
    ensures IsSubsequence(r, s)
    ensures forall x :: multiset(r)[x] == if p(x) then multiset(s)[x] else 0
    ensures |r| <= |s|
  {
    if |s| == 0 then []
    else
      assert s == [s[0]] + s[1..];
      var rest := Filter(s[1..], p);
      if p(s[0]) then
        assert ([s[0]] + rest)[1..] == rest;
        [s[0]] + rest
      else rest
  }

  /** Membership in a filtered sequence, derived from the counting contract of `Filter`. */
  lemma FilterMembership<T(!new)>(s: seq<T>, p: T -> bool, x: T)
    ensures x in Filter(s, p) <==> x in s && p(x)
  {
    var r := Filter(s, p);
    assert x in r <==> multiset(r)[x] > 0;
    assert x in s <==> multiset(s)[x] > 0;
  }

  /** The first `n` elements, or all of them when there are fewer (`slice(0, n)`). */
  function Take<T>(s: seq<T>, n: nat): (r: seq<T>)
    ensures |r| == if |s| < n then |s| else n
    ensures forall i :: 0 <= i < |r| ==> r[i] == s[i]
  {
    if |s| <= n then s else s[..n]
  }

  /** `Take` keeps a sub-multiset, and whatever it leaves out lies in the dropped suffix. */
  lemma TakeLeavesSuffix<T>(s: seq<T>, n: nat, x: T)
    requires multiset(Take(s, n))[x] < multiset(s)[x]
    ensures exists j :: n <= j < |s| && s[j] == x
  {
    var k := |Take(s, n)|;
    assert s == s[..k] + s[k..];
    assert Take(s, n) == s[..k];
    assert multiset(s) == multiset(s[..k]) + multiset(s[k..]);
    assert x in s[k..];
    var j :| 0 <= j < |s[k..]| && s[k..][j] == x;
    assert s[k + j] == x;
  }

  lemma TakeSubMultiset<T>(s: seq<T>, n: nat)
    ensures multiset(Take(s, n)) <= multiset(s)
  {
    var k := |Take(s, n)|;
    assert s == s[..k] + s[k..];
    assert Take(s, n) == s[..k];
    assert multiset(s) == multiset(s[..k]) + multiset(s[k..]);
  }

  /** The sum of a sequence of integers, the reference definition for `reduce((a, b) => a + b, 0)`. */
  function Sum(s: seq<int>): int
  {
    if |s| == 0 then 0 else s[0] + Sum(s[1..])
  }

  /** Sums split over concatenation, so a left-to-right fold computes `Sum`. */
  lemma {:induction false} SumAppend(a: seq<int>, b: seq<int>)
    ensures Sum(a + b) == Sum(a) + Sum(b)
    decreases |a|
  {
    if |a| == 0 {
      assert a + b == b;
    } else {
      assert (a + b)[1..] == a[1..] + b;
      SumAppend(a[1..], b);
    }
  }

  /** A sequence without repeated elements. */
  predicate NoDuplicates<T(==)>(s: seq<T>)
  {
    forall i, j :: 0 <= i < j < |s| ==> s[i] != s[j]
  }

  /** A repetition-free sequence holds each value at most once. */
  lemma {:induction false} NoDuplicatesCount<T>(s: seq<T>, x: T)
    requires NoDuplicates(s)
    ensures multiset(s)[x] <= 1
    decreases |s|
  {
    if |s| > 0 {
      assert s == [s[0]] + s[1..];
      assert NoDuplicates(s[1..]) by {
        forall i, j | 0 <= i < j < |s[1..]| ensures s[1..][i] != s[1..][j] {
          assert s[1..][i] == s[i + 1] && s[1..][j] == s[j + 1];
        }
      }
      NoDuplicatesCount(s[1..], x);
      if s[0] == x {
        assert x !in s[1..] by {
          forall k | 0 <= k < |s[1..]| ensures s[1..][k] != x {
            assert s[1..][k] == s[k + 1];
          }
        }
      }
    }
  }

  /** Any rearrangement of a repetition-free sequence is repetition-free. */
  lemma PermutationKeepsNoDuplicates<T>(s: seq<T>, t: seq<T>)
    requires NoDuplicates(s)
    requires multiset(s) == multiset(t)
    ensures NoDuplicates(t)
  {
    forall i, j | 0 <= i < j < |t| ensures t[i] != t[j] {
      if t[i] == t[j] {
        assert t == t[..j] + t[j..];
        assert t[i] in t[..j];
        assert t[j] in t[j..];
        assert multiset(t) == multiset(t[..j]) + multiset(t[j..]);
        NoDuplicatesCount(s, t[i]);
        assert false;
      }
    }
  }
}

=== FILE: sorting.dfy ===
/**
 * A stable sort over a total preorder `le` ("a may come before b"). It stands for
 * `Array.prototype.sort` with a comparator, which ECMAScript requires to be stable:
 * elements the comparator calls equal keep their input order.
 */
module Sorting {

  import Seqs

  ghost predicate Total<T(!new)>(le: (T, T) -> bool) {
    forall x, y :: le(x, y) || le(y, x)
  }

  ghost predicate Transitive<T(!new)>(le: (T, T) -> bool) {
    forall x, y, z :: le(x, y) && le(y, z) ==> le(x, z)
  }

  ghost predicate TotalPreorder<T(!new)>(le: (T, T) -> bool) {
    Total(le) && Transitive(le)
  }

  /** Every earlier element may come before every later one. */
  predicate SortedBy<T>(s: seq<T>, le: (T, T) -> bool) {
    forall i, j :: 0 <= i < j < |s| ==> le(s[i], s[j])
  }

  /** The comparator returns 0 for `a` and `b`. */
  predicate Tied<T>(le: (T, T) -> bool, a: T, b: T) {
    le(a, b) && le(b, a)
  }

  /** The elements tied with `z`, in order of appearance. */
  function TiedWith<T>(s: seq<T>, z: T, le: (T, T) -> bool): seq<T>
  {
    if |s| == 0 then []
    else (if Tied(le, s[0], z) then [s[0]] else []) + TiedWith(s[1..], z, le)
  }

  /** Places `x` in front of the first element it may precede. */
  function Insert<T>(x: T, s: seq<T>, le: (T, T) -> bool): (r: seq<T>)
    ensures multiset(r) == multiset(s) + multiset{x}
    ensures |r| == |s| + 1
  {
    if |s| == 0 || le(x, s[0]) then [x] + s
    else
      assert s == [s[0]] + s[1..];
      [s[0]] + Insert(x, s[1..], le)
  }

  /** Insertion sort: the result is a permutation of the input. */
  function Sort<T>(s: seq<T>, le: (T, T) -> bool): (r: seq<T>)
    ensures multiset(r) == multiset(s)
    ensures |r| == |s|
  {
    if |s| == 0 then []
    else
      assert s == [s[0]] + s[1..];
      Insert(s[0], Sort(s[1..], le), le)
  }

  lemma {:induction false} InsertSorted<T(!new)>(x: T, s: seq<T>, le: (T, T) -> bool)
    requires TotalPreorder(le)
    requires SortedBy(s, le)
    ensures SortedBy(Insert(x, s, le), le)
    decreases |s|
  {
    if |s| == 0 || le(x, s[0]) {
      var r := [x] + s;
      forall i, j | 0 <= i < j < |r| ensures le(r[i], r[j]) {
        if i == 0 {
          assert r[j] == s[j - 1];
          assert le(x, s[0]) && (j - 1 == 0 || le(s[0], s[j - 1]));
        }
      }
    } else {
      var rest := Insert(x, s[1..], le);
      assert SortedBy(s[1..], le);
      InsertSorted(x, s[1..], le);
      var r := [s[0]] + rest;
      assert le(s[0], x);
      forall i, j | 0 <= i < j < |r| ensures le(r[i], r[j]) {
        if i == 0 {
          assert r[j] in multiset(rest);
          assert r[j] in multiset(s[1..]) + multiset{x};
          if r[j] != x {
            assert r[j] in s[1..];
            var k :| 0 <= k < |s[1..]| && s[1..][k] == r[j];
            assert s[k + 1] == r[j];
          }
        }
      }
    }
  }

  /** The output of `Sort` is ordered by `le`. */
  lemma {:induction false} SortSorted<T(!new)>(s: seq<T>, le: (T, T) -> bool)
    requires TotalPreorder(le)
    ensures SortedBy(Sort(s, le), le)
    decreases |s|
  {
    if |s| > 0 {
      SortSorted(s[1..], le);
      InsertSorted(s[0], Sort(s[1..], le), le);
    }
  }

  lemma TiedWithPrepend<T>(x: T, s: seq<T>, z: T, le: (T, T) -> bool)
    ensures TiedWith([x] + s, z, le) == (if Tied(le, x, z) then [x] else []) + TiedWith(s, z, le)
  {
    assert ([x] + s)[1..] == s;
  }

  lemma {:induction false} InsertTiedWith<T(!new)>(x: T, s: seq<T>, z: T, le: (T, T) -> bool)
    requires TotalPreorder(le)
    requires SortedBy(s, le)
    ensures TiedWith(Insert(x, s, le), z, le)
         == (if Tied(le, x, z) then [x] else []) + TiedWith(s, z, le)
    decreases |s|
  {
    if |s| == 0 || le(x, s[0]) {
      TiedWithPrepend(x, s, z, le);
    } else {
      assert SortedBy(s[1..], le);
      InsertTiedWith(x, s[1..], z, le);
      TiedWithPrepend(s[0], Insert(x, s[1..], le), z, le);
      if Tied(le, x, z) {
        assert !Tied(le, s[0], z);
      }
    }
  }

  /**
   * Stability: for every `z`, the elements tied with `z` appear in the output in
   * exactly the order they had in the input.
   */
  lemma {:induction false} SortStable<T(!new)>(s: seq<T>, z: T, le: (T, T) -> bool)
    requires TotalPreorder(le)
    ensures TiedWith(Sort(s, le), z, le) == TiedWith(s, z, le)
    decreases |s|
  {
    if |s| > 0 {
      SortStable(s[1..], z, le);
      SortSorted(s[1..], le);
      InsertTiedWith(s[0], Sort(s[1..], le), z, le);
    }
  }

  /** Tied elements appear in increasing `pos`. */
  predicate TiesOrderedBy<T>(s: seq<T>, le: (T, T) -> bool, pos: T -> int) {
    forall i, j :: 0 <= i < j < |s| && Tied(le, s[i], s[j]) ==> pos(s[i]) < pos(s[j])
  }

  lemma {:induction false} InsertKeepsTieOrder<T(!new)>(x: T, s: seq<T>, le: (T, T) -> bool, pos: T -> int)
    requires TotalPreorder(le)
    requires TiesOrderedBy(s, le, pos)
    requires forall k :: 0 <= k < |s| ==> pos(x) < pos(s[k])
    ensures TiesOrderedBy(Insert(x, s, le), le, pos)
    decreases |s|
  {
    if |s| == 0 || le(x, s[0]) {
      var r := [x] + s;
      forall i, j | 0 <= i < j < |r| && Tied(le, r[i], r[j]) ensures pos(r[i]) < pos(r[j]) {
        if i > 0 {
          assert r[i] == s[i - 1] && r[j] == s[j - 1];
        } else {
          assert r[j] == s[j - 1];
        }
      }
    } else {
      var rest := Insert(x, s[1..], le);
      InsertKeepsTieOrder(x, s[1..], le, pos);
      var r := [s[0]] + rest;
      forall i, j | 0 <= i < j < |r| && Tied(le, r[i], r[j]) ensures pos(r[i]) < pos(r[j]) {
        if i == 0 {
          assert r[j] in multiset(s[1..]) + multiset{x};
          if r[j] == x {
            assert false;
          } else {
            assert r[j] in s[1..];
            var k :| 0 <= k < |s[1..]| && s[1..][k] == r[j];
            assert s[k + 1] == r[j];
          }
        } else {
          assert r[i] == rest[i - 1] && r[j] == rest[j - 1];
        }
      }
    }
  }

  /**
   * Stability, pairwise: when the input is in increasing `pos` (its original
   * position, say), tied elements leave the sort in increasing `pos`.
   */
  lemma {:induction false} SortKeepsTieOrder<T(!new)>(s: seq<T>, le: (T, T) -> bool, pos: T -> int)
    requires TotalPreorder(le)
    requires forall i, j :: 0 <= i < j < |s| ==> pos(s[i]) < pos(s[j])
    ensures TiesOrderedBy(Sort(s, le), le, pos)
    decreases |s|
  {
    if |s| > 0 {
      var sorted := Sort(s[1..], le);
      SortKeepsTieOrder(s[1..], le, pos);
      forall k | 0 <= k < |sorted| ensures pos(s[0]) < pos(sorted[k]) {
        assert sorted[k] in multiset(s[1..]);
        var m :| 0 <= m < |s[1..]| && s[1..][m] == sorted[k];
        assert s[m + 1] == sorted[k];
      }
      InsertKeepsTieOrder(s[0], sorted, le, pos);
    }
  }

  /**
   * A prefix of a sorted sequence holds its best elements: an occurrence of `x`
   * left out of the first `n` comes after each of them.
   */
  lemma TakeOfSortedIsBest<T(!new)>(s: seq<T>, le: (T, T) -> bool, n: nat, x: T)
    requires SortedBy(s, le)
    requires multiset(Seqs.Take(s, n))[x] < multiset(s)[x]
    ensures forall i :: 0 <= i < |Seqs.Take(s, n)| ==> le(Seqs.Take(s, n)[i], x)
  {
    Seqs.TakeLeavesSuffix(s, n, x);
  }
}

=== FILE: stats.dfy ===
/**
 * The `/api/stats` aggregation: star and fork totals, the language histogram
 * and its top five, and the counters copied from the user's profile.
 */
module Stats {

  import opened Wrappers
  import opened GitHub
  import Seqs
  import Sorting

  /** One entry of the `languages` array in the response. */
  datatype LanguageCount = LanguageCount(language: string, count: nat)

  /** The JSON body of `/api/stats`. */
  datatype Statistics = Statistics(
    publicRepos: nat,
    followers: nat,
    following: nat,
    totalStars: int,
    totalForks: int,
    languages: seq<LanguageCount>)

  /** `if (repo.language)`: null, absent and empty languages are skipped. */
  predicate HasLanguage(r: UpstreamRepo) {
    Truthy(r.language)
  }

  function LanguageColumn(repos: seq<UpstreamRepo>): (col: seq<Option<string>>)
    ensures |col| == |repos|
  {
    seq(|repos|, i requires 0 <= i < |repos| => repos[i].language)
  }

  /** The number of repositories whose language is exactly `lang`. */
  function CountLanguage(repos: seq<UpstreamRepo>, lang: string): nat {
    multiset(LanguageColumn(repos))[Some(lang)]
  }

  function StarsColumn(repos: seq<UpstreamRepo>): (col: seq<int>)
    ensures |col| == |repos|
  {
    seq(|repos|, i requires 0 <= i < |repos| => repos[i].stargazersCount as int)
  }

  function ForksColumn(repos: seq<UpstreamRepo>): (col: seq<int>)
    ensures |col| == |repos|
  {
    seq(|repos|, i requires 0 <= i < |repos| => repos[i].forksCount as int)
  }

  /**
   * The `languages` object: its keys in insertion order (which is the order
   * `Object.entries` lists them in) and the count stored under each key.
   */
  datatype Histogram = Histogram(order: seq<string>, counts: map<string, nat>)

  ghost predicate ValidHistogram(h: Histogram) {
    && Seqs.NoDuplicates(h.order)
    && (forall k :: k in h.order ==> k in h.counts)
    && (forall k :: k in h.counts ==> k in h.order)
  }

  /** `languages[lang] = (languages[lang] || 0) + 1`. */
  function Record(h: Histogram, lang: string): (r: Histogram)
    requires ValidHistogram(h)
    ensures ValidHistogram(r)
    ensures r.counts.Keys == h.counts.Keys + {lang}
    ensures r.counts[lang] == (if lang in h.counts then h.counts[lang] else 0) + 1
    ensures forall k :: k in h.counts && k != lang ==> r.counts[k] == h.counts[k]
    ensures lang in h.counts ==> r.order == h.order
    ensures lang !in h.counts ==> r.order == h.order + [lang]
  {
    if lang in h.counts then
      Histogram(h.order, h.counts[lang := h.counts[lang] + 1])
    else
      Histogram(h.order + [lang], h.counts[lang := 1])
  }

  /** The `forEach` over the repositories, as a left fold. */
  function Tally(repos: seq<UpstreamRepo>): (h: Histogram)
    ensures ValidHistogram(h)
  {
    if |repos| == 0 then Histogram([], map[])
    else
      var h := Tally(repos[..|repos| - 1]);
      var r := repos[|repos| - 1];
      if HasLanguage(r) then Record(h, r.language.value) else h
  }

  /** `Object.entries(languages)` as `LanguageCount`s. */
  function Entries(h: Histogram): (es: seq<LanguageCount>)
    requires forall k :: k in h.order ==> k in h.counts
    ensures |es| == |h.order|
    ensures forall i :: 0 <= i < |es| ==> es[i].language == h.order[i] && es[i].count == h.counts[es[i].language]
  {
    seq(|h.order|, i requires 0 <= i < |h.order| => LanguageCount(h.order[i], h.counts[h.order[i]]))
  }

  /** The comparator `(a, b) => b.count - a.count`: `a` may come first when its count is not smaller. */
  predicate MoreRepos(a: LanguageCount, b: LanguageCount) {
    a.count >= b.count
  }

  lemma MoreReposIsTotalPreorder()
    ensures Sorting.TotalPreorder(MoreRepos)
  {
  }

  /** `.sort(([,a], [,b]) => b - a)` of the entries: a permutation of them with counts non-increasing. */
  function Ranking(repos: seq<UpstreamRepo>): (ranked: seq<LanguageCount>)
    ensures multiset(ranked) == multiset(Entries(Tally(repos)))
    ensures forall i, j :: 0 <= i < j < |ranked| ==> ranked[i].count >= ranked[j].count
  {
    MoreReposIsTotalPreorder();
    Sorting.SortSorted(Entries(Tally(repos)), MoreRepos);
    Sorting.Sort(Entries(Tally(repos)), MoreRepos)
  }

  /** `.slice(0, 5)` of the ranking. */
  function TopLanguages(repos: seq<UpstreamRepo>): (top: seq<LanguageCount>)
    ensures |top| <= 5
  {
    Seqs.Take(Ranking(repos), 5)
  }

  /** The index of the first repository whose language is `lang` (`|repos|` when there is none). */
  function FirstSeen(repos: seq<UpstreamRepo>, lang: string): (n: nat)
    ensures n <= |repos|
    ensures n < |repos| ==> repos[n].language == Some(lang)
    ensures forall i :: 0 <= i < n ==> repos[i].language != Some(lang)
  {
    if |repos| == 0 then 0
    else if repos[0].language == Some(lang) then 0
    else 1 + FirstSeen(repos[1..], lang)
  }

  lemma LanguageColumnSnoc(repos: seq<UpstreamRepo>)
    requires |repos| > 0
    ensures LanguageColumn(repos) == LanguageColumn(repos[..|repos| - 1]) + [repos[|repos| - 1].language]
  {
  }

  /** A language seen at some position is counted. */
  lemma FirstSeenCounted(repos: seq<UpstreamRepo>, lang: string)
    ensures FirstSeen(repos, lang) < |repos| ==> CountLanguage(repos, lang) > 0
  {
    var n := FirstSeen(repos, lang);
    if n < |repos| {
      assert LanguageColumn(repos)[n] == Some(lang);
    }
  }

  lemma FirstSeenPrefix(repos: seq<UpstreamRepo>, lang: string)
    requires |repos| > 0
    ensures FirstSeen(repos[..|repos| - 1], lang) < |repos| - 1 ==>
              FirstSeen(repos, lang) == FirstSeen(repos[..|repos| - 1], lang)
    ensures FirstSeen(repos[..|repos| - 1], lang) == |repos| - 1 ==> FirstSeen(repos, lang) >= |repos| - 1
  {
    var p := repos[..|repos| - 1];
    forall i | 0 <= i < |p| ensures repos[i] == p[i] {}
  }

  /**
   * Each language in the histogram is counted exactly as often as it occurs, a
   * language occurring at least once is in the histogram, and the empty
   * language never is.
   */
  lemma {:induction false} TallyCounts(repos: seq<UpstreamRepo>)
    ensures "" !in Tally(repos).counts
    ensures forall lang :: lang != "" ==> (lang in Tally(repos).counts <==> CountLanguage(repos, lang) > 0)
    ensures forall lang :: lang in Tally(repos).counts ==> Tally(repos).counts[lang] == CountLanguage(repos, lang)
    decreases |repos|
  {
    if |repos| > 0 {
      var p := repos[..|repos| - 1];
      var r := repos[|repos| - 1];
      TallyCounts(p);
      LanguageColumnSnoc(repos);
      assert forall lang ::
        CountLanguage(repos, lang) == CountLanguage(p, lang) + (if r.language == Some(lang) then 1 else 0);
    }
  }

  /** Keys enter the histogram in the order their languages are first seen. */
  lemma {:induction false} TallyOrder(repos: seq<UpstreamRepo>)
    ensures forall i :: 0 <= i < |Tally(repos).order| ==> FirstSeen(repos, Tally(repos).order[i]) < |repos|
    ensures forall i, j :: 0 <= i < j < |Tally(repos).order| ==>
              FirstSeen(repos, Tally(repos).order[i]) < FirstSeen(repos, Tally(repos).order[j])
    decreases |repos|
  {
    if |repos| > 0 {
      var p := repos[..|repos| - 1];
      var r := repos[|repos| - 1];
      var h := Tally(p);
      TallyOrder(p);
      TallyCounts(p);
      forall i | 0 <= i < |h.order| ensures FirstSeen(repos, h.order[i]) == FirstSeen(p, h.order[i]) {
        FirstSeenPrefix(repos, h.order[i]);
      }
      if HasLanguage(r) && r.language.value !in h.counts {
        var lang := r.language.value;
        FirstSeenCounted(p, lang);
        FirstSeenPrefix(repos, lang);
        assert Tally(repos).order == h.order + [lang];
      }
    }
  }

  /** Every entry of the ranking comes from the histogram. */
  lemma RankingFromHistogram(repos: seq<UpstreamRepo>, e: LanguageCount)
    requires e in Ranking(repos)
    ensures e.language in Tally(repos).counts
    ensures e.count == Tally(repos).counts[e.language]
  {
    var es := Entries(Tally(repos));
    assert e in multiset(Ranking(repos));
    assert e in es;
  }

  /** The ranking lists each counted language once, with its count. */
  lemma RankingContents(repos: seq<UpstreamRepo>)
    ensures forall e :: e in Ranking(repos) ==>
              e.language != "" && e.count == CountLanguage(repos, e.language) && e.count >= 1
    ensures forall lang :: lang != "" && CountLanguage(repos, lang) > 0 ==>
              exists i :: 0 <= i < |Ranking(repos)| && Ranking(repos)[i].language == lang
    ensures forall i, j :: 0 <= i < j < |Ranking(repos)| ==> Ranking(repos)[i].language != Ranking(repos)[j].language
  {
    var h := Tally(repos);
    var es := Entries(h);
    var ranked := Ranking(repos);
    TallyCounts(repos);
    forall e | e in ranked
      ensures e.language != "" && e.count == CountLanguage(repos, e.language) && e.count >= 1
    {
      RankingFromHistogram(repos, e);
    }
    forall lang | lang != "" && CountLanguage(repos, lang) > 0
      ensures exists i :: 0 <= i < |ranked| && ranked[i].language == lang
    {
      var k :| 0 <= k < |h.order| && h.order[k] == lang;
      assert es[k] in multiset(ranked);
      var i :| 0 <= i < |ranked| && ranked[i] == es[k];
    }
    assert Seqs.NoDuplicates(es) by {
      forall i, j | 0 <= i < j < |es| ensures es[i] != es[j] {
        assert es[i].language == h.order[i] && es[j].language == h.order[j];
      }
    }
    Seqs.PermutationKeepsNoDuplicates(es, ranked);
    forall i, j | 0 <= i < j < |ranked| ensures ranked[i].language != ranked[j].language {
      RankingFromHistogram(repos, ranked[i]);
      RankingFromHistogram(repos, ranked[j]);
    }
  }

  /** Languages with equal counts are ranked in the order they were first seen. */
  lemma RankingTieOrder(repos: seq<UpstreamRepo>)
    ensures forall i, j :: 0 <= i < j < |Ranking(repos)| && Ranking(repos)[i].count == Ranking(repos)[j].count ==>
              FirstSeen(repos, Ranking(repos)[i].language) < FirstSeen(repos, Ranking(repos)[j].language)
  {
    var h := Tally(repos);
    var es := Entries(h);
    var pos := (e: LanguageCount) => FirstSeen(repos, e.language);
    TallyOrder(repos);
    MoreReposIsTotalPreorder();
    assert forall i, j :: 0 <= i < j < |es| ==> pos(es[i]) < pos(es[j]);
    Sorting.SortKeepsTieOrder(es, MoreRepos, pos);
  }

  /** The `languages` field holds as many entries as there are languages, up to five. */
  lemma TopLanguagesLength(repos: seq<UpstreamRepo>)
    ensures |TopLanguages(repos)| == if |Tally(repos).order| < 5 then |Tally(repos).order| else 5
  {
  }

  /** The `languages` field lists counts in non-increasing order. */
  lemma TopLanguagesOrdered(repos: seq<UpstreamRepo>)
    ensures forall i, j :: 0 <= i < j < |TopLanguages(repos)| ==> TopLanguages(repos)[i].count >= TopLanguages(repos)[j].count
  {
    MoreReposIsTotalPreorder();
    Sorting.SortSorted(Entries(Tally(repos)), MoreRepos);
  }

  /** Each entry of the `languages` field names a language and carries its true, positive count. */
  lemma TopLanguagesCounted(repos: seq<UpstreamRepo>)
    ensures forall i :: 0 <= i < |TopLanguages(repos)| ==>
              TopLanguages(repos)[i].language != "" && TopLanguages(repos)[i].count >= 1 &&
              TopLanguages(repos)[i].count == CountLanguage(repos, TopLanguages(repos)[i].language)
  {
    RankingContents(repos);
    var top := TopLanguages(repos);
    var ranked := Ranking(repos);
    forall i | 0 <= i < |top| ensures top[i] in ranked {
      assert top[i] == ranked[i];
    }
  }

  /** No language appears twice in the `languages` field. */
  lemma TopLanguagesDistinct(repos: seq<UpstreamRepo>)
    ensures forall i, j :: 0 <= i < j < |TopLanguages(repos)| ==>
              TopLanguages(repos)[i].language != TopLanguages(repos)[j].language
  {
    RankingContents(repos);
    var top := TopLanguages(repos);
    var ranked := Ranking(repos);
    forall i, j | 0 <= i < j < |top| ensures top[i].language != top[j].language {
      assert top[i] == ranked[i] && top[j] == ranked[j];
    }
  }

  /** The top five are maximal: a counted language left out has no more repositories than any listed one. */
  lemma TopLanguagesAreBest(repos: seq<UpstreamRepo>, lang: string)
    requires lang != "" && CountLanguage(repos, lang) > 0
    requires forall i :: 0 <= i < |TopLanguages(repos)| ==> TopLanguages(repos)[i].language != lang
    ensures forall i :: 0 <= i < |TopLanguages(repos)| ==> TopLanguages(repos)[i].count >= CountLanguage(repos, lang)
  {
    var ranked := Ranking(repos);
    var top := TopLanguages(repos);
    MoreReposIsTotalPreorder();
    Sorting.SortSorted(Entries(Tally(repos)), MoreRepos);
    RankingContents(repos);
    var j :| 0 <= j < |ranked| && ranked[j].language == lang;
    assert j >= |top|;
    forall i | 0 <= i < |top| ensures top[i].count >= CountLanguage(repos, lang) {
      assert top[i] == ranked[i];
      assert MoreRepos(ranked[i], ranked[j]);
    }
  }

  /** One step of the fold: the histogram of `p + [r]` records `r`'s language in that of `p`. */
  lemma TallySnoc(p: seq<UpstreamRepo>, r: UpstreamRepo)
    ensures Tally(p + [r]) == if HasLanguage(r) then Record(Tally(p), r.language.value) else Tally(p)
  {
    assert (p + [r])[..|p + [r]| - 1] == p;
  }

  lemma ExampleHistogramStart(js: UpstreamRepo, go: UpstreamRepo)
    requires js.language == Some("JavaScript") && go.language == Some("Go")
    ensures Tally([js] + [js] + [go]) == Histogram(["JavaScript", "Go"], map["JavaScript" := 2, "Go" := 1])
  {
    var p0: seq<UpstreamRepo> := [];
    assert p0 + [js] == [js];
    TallySnoc(p0, js);
    assert Tally([js]) == Histogram(["JavaScript"], map["JavaScript" := 1]);
    TallySnoc([js], js);
    assert Tally([js] + [js]) == Histogram(["JavaScript"], map["JavaScript" := 2]);
    TallySnoc([js] + [js], go);
  }

  lemma ExampleSecondGo(p: seq<UpstreamRepo>, go: UpstreamRepo)
    requires go.language == Some("Go")
    requires Tally(p) == Histogram(["JavaScript", "Go"], map["JavaScript" := 2, "Go" := 1])
    ensures Tally(p + [go]) == Histogram(["JavaScript", "Go"], map["JavaScript" := 2, "Go" := 2])
  {
    TallySnoc(p, go);
  }

  lemma ExampleThirdJavaScript(p: seq<UpstreamRepo>, js: UpstreamRepo)
    requires js.language == Some("JavaScript")
    requires Tally(p) == Histogram(["JavaScript", "Go"], map["JavaScript" := 2, "Go" := 2])
    ensures Tally(p + [js]) == Histogram(["JavaScript", "Go"], map["JavaScript" := 3, "Go" := 2])
  {
    TallySnoc(p, js);
  }

  lemma ExampleHistogramEnd(p: seq<UpstreamRepo>, js: UpstreamRepo, go: UpstreamRepo, none: UpstreamRepo)
    requires js.language == Some("JavaScript") && go.language == Some("Go") && none.language == None
    requires Tally(p) == Histogram(["JavaScript", "Go"], map["JavaScript" := 2, "Go" := 1])
    ensures Tally(p + [none] + [go] + [js]) == Histogram(["JavaScript", "Go"], map["JavaScript" := 3, "Go" := 2])
  {
    TallySnoc(p, none);
    ExampleSecondGo(p + [none], go);
    ExampleThirdJavaScript(p + [none] + [go], js);
  }

  lemma ExampleHistogram(js: UpstreamRepo, go: UpstreamRepo, none: UpstreamRepo)
    requires js.language == Some("JavaScript") && go.language == Some("Go") && none.language == None
    ensures Tally([js, js, go, none, go, js]) == Histogram(["JavaScript", "Go"], map["JavaScript" := 3, "Go" := 2])
  {
    assert [js] + [js] + [go] + [none] + [go] + [js] == [js, js, go, none, go, js];
    ExampleHistogramStart(js, go);
    ExampleHistogramEnd([js] + [js] + [go], js, go, none);
  }

  lemma ExampleEntries()
    ensures Entries(Histogram(["JavaScript", "Go"], map["JavaScript" := 3, "Go" := 2]))
            == [LanguageCount("JavaScript", 3), LanguageCount("Go", 2)]
  {
  }

  lemma ExampleRanking()
    ensures Sorting.Sort([LanguageCount("JavaScript", 3), LanguageCount("Go", 2)], MoreRepos)
            == [LanguageCount("JavaScript", 3), LanguageCount("Go", 2)]
  {
    var es := [LanguageCount("JavaScript", 3), LanguageCount("Go", 2)];
    assert es[1..] == [LanguageCount("Go", 2)];
  }

  /**
   * Repositories whose languages are JavaScript, JavaScript, Go, none, Go,
   * JavaScript give JavaScript 3 then Go 2, whatever their other fields.
   */
  lemma LanguagesExample(js: UpstreamRepo, go: UpstreamRepo, none: UpstreamRepo)
    requires js.language == Some("JavaScript") && go.language == Some("Go") && none.language == None
    ensures TopLanguages([js, js, go, none, go, js]) == [LanguageCount("JavaScript", 3), LanguageCount("Go", 2)]
  {
    ExampleHistogram(js, go, none);
    ExampleEntries();
    ExampleRanking();
  }

  /** The response body of `/api/stats`, with the two sums computed as `reduce` does, left to right. */
  method ComputeStats(user: UpstreamUser, repos: seq<UpstreamRepo>) returns (s: Statistics)
    ensures s.publicRepos == user.publicRepos && s.followers == user.followers && s.following == user.following
    ensures s.totalStars == Seqs.Sum(StarsColumn(repos))
    ensures s.totalForks == Seqs.Sum(ForksColumn(repos))
    ensures s.languages == TopLanguages(repos)
  {
    var stars := 0;
    var forks := 0;
    var i := 0;
    while i < |repos|
      invariant 0 <= i <= |repos|
      invariant stars == Seqs.Sum(StarsColumn(repos[..i]))
      invariant forks == Seqs.Sum(ForksColumn(repos[..i]))
    {
      assert StarsColumn(repos[..i + 1]) == StarsColumn(repos[..i]) + [repos[i].stargazersCount as int];
      assert ForksColumn(repos[..i + 1]) == ForksColumn(repos[..i]) + [repos[i].forksCount as int];
      Seqs.SumAppend(StarsColumn(repos[..i]), [repos[i].stargazersCount as int]);
      Seqs.SumAppend(ForksColumn(repos[..i]), [repos[i].forksCount as int]);
      stars := stars + repos[i].stargazersCount;
      forks := forks + repos[i].forksCount;
      i := i + 1;
    }
    assert repos[..i] == repos;
    s := Statistics(user.publicRepos, user.followers, user.following, stars, forks, TopLanguages(repos));
  }
}

=== FILE: text.dfy ===
/**
 * The string operations the list views rely on: `String.prototype.trim`,
 * `toLowerCase`, `includes`, an ordering of names, and decimal rendering of
 * counts inside template literals.
 */
module Text {

  /** ECMAScript WhiteSpace and LineTerminator code points: what `trim` removes. */
  predicate IsWhitespace(c: char) {
    || c == '\t' || c == '\n' || c == '\U{000B}' || c == '\U{000C}' || c == '\r' || c == ' '
    || c == '\U{00A0}' || c == '\U{1680}' || ('\U{2000}' <= c <= '\U{200A}')
    || c == '\U{2028}' || c == '\U{2029}' || c == '\U{202F}' || c == '\U{205F}'
    || c == '\U{3000}' || c == '\U{FEFF}'
  }

  /** Every character is white space (true of the empty string). */
  predicate IsBlank(s: string) {
    forall i :: 0 <= i < |s| ==> IsWhitespace(s[i])
  }

  /** The number of leading white-space characters. */
  function LeadingBlanks(s: string): (n: nat)
    ensures n <= |s|
    ensures forall i :: 0 <= i < n ==> IsWhitespace(s[i])
    ensures n < |s| ==> !IsWhitespace(s[n])
  {
    if |s| == 0 || !IsWhitespace(s[0]) then 0 else 1 + LeadingBlanks(s[1..])
  }

  /** The length of `s` without its trailing white-space characters. */
  function WithoutTrailingBlanks(s: string): (m: nat)
    ensures m <= |s|
    ensures forall i :: m <= i < |s| ==> IsWhitespace(s[i])
    ensures m > 0 ==> !IsWhitespace(s[m - 1])
  {
    if |s| == 0 || !IsWhitespace(s[|s| - 1]) then |s| else WithoutTrailingBlanks(s[..|s| - 1])
  }

  /** `String.prototype.trim`. */
  function Trim(s: string): (r: string)
    ensures |r| == 0 <==> IsBlank(s)
    ensures |r| > 0 ==> !IsWhitespace(r[0]) && !IsWhitespace(r[|r| - 1])
    ensures exists i, j :: 0 <= i <= j <= |s| && r == s[i..j] && IsBlank(s[..i]) && IsBlank(s[j..])
  {
    var n := LeadingBlanks(s);
    var m := WithoutTrailingBlanks(s);
    if m <= n then
      assert IsBlank(s) by {
        forall i | 0 <= i < |s| ensures IsWhitespace(s[i]) {
          assert i < n || m <= i;
        }
      }
      assert s[0..0] == "" && s[..0] == "" && s[0..] == s;
      ""
    else
      assert !IsWhitespace(s[n]);
      assert IsBlank(s[..n]) && IsBlank(s[m..]);
      s[n..m]
  }

  /** ASCII case mapping of `toLowerCase`; other characters are left as they are. */
  function LowerChar(c: char): char {
    if 'A' <= c <= 'Z' then (c as int - 'A' as int + 'a' as int) as char else c
  }

  function LowerCase(s: string): (r: string)
    ensures |r| == |s|
    ensures forall i :: 0 <= i < |s| ==> r[i] == LowerChar(s[i])
  {
    seq(|s|, i requires 0 <= i < |s| => LowerChar(s[i]))
  }

  /** `needle` is the slice of `hay` that starts at position `i`. */
  predicate OccursAt(needle: string, hay: string, i: int) {
    0 <= i && i + |needle| <= |hay| && hay[i..i + |needle|] == needle
  }

  /** `needle` occurs in `hay` at some position: the meaning of `hay.includes(needle)`. */
  ghost predicate Occurs(needle: string, hay: string) {
    exists i :: OccursAt(needle, hay, i)
  }

  lemma OccursInTail(needle: string, hay: string)
    requires |hay| > 0
    requires !(|needle| <= |hay| && hay[..|needle|] == needle)
    ensures Occurs(needle, hay) <==> Occurs(needle, hay[1..])
  {
    if Occurs(needle, hay) {
      var i :| OccursAt(needle, hay, i);
      assert i != 0;
      assert hay[1..][i - 1..i - 1 + |needle|] == needle;
      assert OccursAt(needle, hay[1..], i - 1);
    }
    if Occurs(needle, hay[1..]) {
      var i :| OccursAt(needle, hay[1..], i);
      assert hay[i + 1..i + 1 + |needle|] == needle;
      assert OccursAt(needle, hay, i + 1);
    }
  }

  /** `hay.includes(needle)`, scanning the start positions left to right. */
  function Includes(hay: string, needle: string): (b: bool)
    ensures b <==> Occurs(needle, hay)
    decreases |hay|
  {
    if |needle| <= |hay| && hay[..|needle|] == needle then
      assert OccursAt(needle, hay, 0);
      true
    else if |hay| == 0 then
      false
    else
      OccursInTail(needle, hay);
      Includes(hay[1..], needle)
  }

  /**
   * Lexicographic order on code points: `a` may come before `b`. It meets the
   * total-preorder assumption on the `name` sort's collation, which shows the
   * assumption can be met; it is not itself a possible `localeCompare`, which
   * must tie canonically equivalent strings.
   */
  predicate LexLe(a: string, b: string)
    decreases |a|
  {
    if |a| == 0 then true
    else if |b| == 0 then false
    else if a[0] != b[0] then a[0] < b[0]
    else LexLe(a[1..], b[1..])
  }

  lemma {:induction false} LexLeTotal(a: string, b: string)
    ensures LexLe(a, b) || LexLe(b, a)
    decreases |a|
  {
    if |a| > 0 && |b| > 0 && a[0] == b[0] {
      LexLeTotal(a[1..], b[1..]);
    }
  }

  lemma {:induction false} LexLeTransitive(a: string, b: string, c: string)
    requires LexLe(a, b) && LexLe(b, c)
    ensures LexLe(a, c)
    decreases |a|
  {
    if |a| > 0 && |b| > 0 && |c| > 0 && a[0] == b[0] && b[0] == c[0] {
      LexLeTransitive(a[1..], b[1..], c[1..]);
    }
  }

  predicate IsDigit(c: char) {
    '0' <= c <= '9'
  }

  predicate AllDigits(s: string) {
    forall i :: 0 <= i < |s| ==> IsDigit(s[i])
  }

  function DigitChar(d: nat): char
    requires d < 10
  {
    ('0' as int + d) as char
  }

  function DigitValue(c: char): nat
    requires IsDigit(c)
  {
    c as int - '0' as int
  }

  /** The decimal text of a count, as a template literal renders a non-negative integer. */
  function NatToString(n: nat): (r: string)
    ensures |r| > 0 && AllDigits(r)
    ensures |r| > 1 ==> r[0] != '0'
  {
    if n < 10 then [DigitChar(n)] else NatToString(n / 10) + [DigitChar(n % 10)]
  }

  /** The value of a string of decimal digits. */
  function ParseDecimal(s: string): nat
    requires AllDigits(s)
  {
    if |s| == 0 then 0 else 10 * ParseDecimal(s[..|s| - 1]) + DigitValue(s[|s| - 1])
  }

  /** Reading back the decimal text of a count gives the count. */
  lemma {:induction false} ParseNatToString(n: nat)
    ensures ParseDecimal(NatToString(n)) == n
    decreases n
  {
    if n >= 10 {
      var s := NatToString(n);
      assert s[..|s| - 1] == NatToString(n / 10);
      ParseNatToString(n / 10);
    }
  }
}

=== FILE: views.dfy ===
/**
 * The browser's derived views over the repository list: the search filter,
 * the sort selector, the project-card selection and the recent-activity list.
 * Each is a pure function of the list it reads; the source keeps those lists
 * in page-level variables.
 */
module Views {

  import opened Wrappers
  import opened GitHub
  import Seqs
  import Sorting
  import Text

  /** `field && field.toLowerCase().includes(term)`: a null or empty field matches nothing. */
  predicate FieldIncludes(field: Option<string>, term: string) {
    Truthy(field) && Text.Includes(Text.LowerCase(field.value), term)
  }

  /** The predicate passed to `filter` in `filterRepositories`. */
  predicate MatchesSearch(r: Repo, term: string): (b: bool)
    ensures b <==> SearchHit(r, term)
  {
    || Text.Includes(Text.LowerCase(r.name), term)
    || FieldIncludes(r.description, term)
    || FieldIncludes(r.language, term)
  }

  /** `term` occurs in the lower-cased text of a truthy field. */
  ghost predicate OccursInField(term: string, field: Option<string>) {
    Truthy(field) && Text.Occurs(term, Text.LowerCase(field.value))
  }

  /** What a search hit means: the term occurs in the lower-cased name, description or language. */
  ghost predicate SearchHit(r: Repo, term: string) {
    || Text.Occurs(term, Text.LowerCase(r.name))
    || OccursInField(term, r.description)
    || OccursInField(term, r.language)
  }

  /**
   * `filterRepositories`: a blank search (only white space) shows everything;
   * otherwise the repositories in which the lower-cased, untrimmed term occurs,
   * in list order and with their multiplicities.
   */
  function FilterRepositories(all: seq<Repo>, searchTerm: string): (r: seq<Repo>)
    ensures Text.IsBlank(searchTerm) ==> r == all
    ensures !Text.IsBlank(searchTerm) ==> Seqs.IsSubsequence(r, all)
    ensures !Text.IsBlank(searchTerm) ==>
              forall x :: x in r <==> x in all && SearchHit(x, Text.LowerCase(searchTerm))
    ensures !Text.IsBlank(searchTerm) ==>
              forall x :: multiset(r)[x] == if SearchHit(x, Text.LowerCase(searchTerm)) then multiset(all)[x] else 0
  {
    if |Text.Trim(searchTerm)| == 0 then all
    else
      var term := Text.LowerCase(searchTerm);
      var keep := x => MatchesSearch(x, term);
      var r := Seqs.Filter(all, keep);
      assert forall x :: x in r <==> x in all && SearchHit(x, term) by {
        forall x ensures x in r <==> x in all && SearchHit(x, term) {
          Seqs.FilterMembership(all, keep, x);
        }
      }
      r
  }

  /** The term is used untrimmed: " go" does not find a repository named "go" with no description or language. */
  lemma UntrimmedTermExample(r: Repo)
    requires r.name == "go" && r.description == None && r.language == None
    ensures FilterRepositories([r], " go") == []
    ensures FilterRepositories([r], "GO") == [r]
  {
    assert !Text.IsWhitespace('g');
    assert Text.LowerCase(" go") == " go";
    assert Text.LowerCase("go") == "go";
    assert Text.LowerCase("GO") == "go";
    assert Text.OccursAt("go", "go", 0);
    assert !Text.Occurs(" go", "go");
    assert !SearchHit(r, " go");
    assert r !in FilterRepositories([r], " go");
  }

  /** The keys of `sortFunctions` in `sortRepositories`. */
  datatype SortKey = ByUpdated | ByCreated | ByPushed | ByName | ByStars

  /** `sortFunctions[sortBy]`: which comparator, if any, the selector value names. */
  function ParseSortKey(sortBy: string): (k: Option<SortKey>)
    ensures k.Some? <==> sortBy in {"updated", "created", "pushed", "name", "stars"}
    ensures k == Some(ByStars) <==> sortBy == "stars"
    ensures k == Some(ByName) <==> sortBy == "name"
  {
    if sortBy == "updated" then Some(ByUpdated)
    else if sortBy == "created" then Some(ByCreated)
    else if sortBy == "pushed" then Some(ByPushed)
    else if sortBy == "name" then Some(ByName)
    else if sortBy == "stars" then Some(ByStars)
    else None
  }

  /** `(a, b) => new Date(b.updated_at) - new Date(a.updated_at)`: `a` may come first when it is not older. */
  predicate UpdatedLater(a: Repo, b: Repo) { a.updatedAt >= b.updatedAt }

  predicate CreatedLater(a: Repo, b: Repo) { a.createdAt >= b.createdAt }

  predicate PushedLater(a: Repo, b: Repo) { a.pushedAt >= b.pushedAt }

  /**
   * `a.name.localeCompare(b.name) <= 0`, for a collation `collate` on names
   * (`collate(x, y)`: `x` may come before `y`). The collation depends on the
   * browser's locale, so it is a parameter; `Text.LexLe` shows its assumption can be met.
   */
  predicate NameFirst(collate: (string, string) -> bool, a: Repo, b: Repo) { collate(a.name, b.name) }

  /** `(a, b) => b.stargazers_count - a.stargazers_count`. */
  predicate MoreStars(a: Repo, b: Repo) { a.stargazersCount >= b.stargazersCount }

  /** The comparator `sortFunctions` holds for each key, with `collate` standing for `localeCompare`. */
  function Comparator(k: SortKey, collate: (string, string) -> bool): (le: (Repo, Repo) -> bool)
    ensures Sorting.TotalPreorder(collate) ==> Sorting.TotalPreorder(le)
    ensures k == ByName ==> forall a, b :: le(a, b) == collate(a.name, b.name)
  {
    match k
    case ByUpdated => UpdatedLater
    case ByCreated => CreatedLater
    case ByPushed => PushedLater
    case ByName => (a, b) => NameFirst(collate, a, b)
    case ByStars => MoreStars
  }

  /** Each comparator is a total preorder, given that the name collation is one. */
  lemma ComparatorIsTotalPreorder(k: SortKey, collate: (string, string) -> bool)
    requires Sorting.TotalPreorder(collate)
    ensures Sorting.TotalPreorder(Comparator(k, collate))
  {
  }

  /** Lexicographic order on code points meets the assumption on the collation, so the assumption can be met. */
  lemma CodePointCollation()
    ensures Sorting.TotalPreorder(Text.LexLe)
  {
    forall a, b ensures Text.LexLe(a, b) || Text.LexLe(b, a) {
      Text.LexLeTotal(a, b);
    }
    forall a, b, c | Text.LexLe(a, b) && Text.LexLe(b, c) ensures Text.LexLe(a, c) {
      Text.LexLeTransitive(a, b, c);
    }
  }

  /** `sortRepositories`: an unknown key leaves the list alone; a known one sorts a permutation of it. */
  function SortRepositories(list: seq<Repo>, sortBy: string, collate: (string, string) -> bool): (r: seq<Repo>)
    ensures multiset(r) == multiset(list)
    ensures ParseSortKey(sortBy).None? ==> r == list
  {
    match ParseSortKey(sortBy)
    case None => list
    case Some(k) => Sorting.Sort(list, Comparator(k, collate))
  }

  /** Under each known key the result is ordered: newest first for the dates, most stars first, names by the collation. */
  lemma SortRepositoriesOrdered(list: seq<Repo>, sortBy: string, collate: (string, string) -> bool)
    requires Sorting.TotalPreorder(collate)
    ensures sortBy == "updated" ==> forall i, j :: 0 <= i < j < |list| ==>
              SortRepositories(list, sortBy, collate)[i].updatedAt >= SortRepositories(list, sortBy, collate)[j].updatedAt
    ensures sortBy == "created" ==> forall i, j :: 0 <= i < j < |list| ==>
              SortRepositories(list, sortBy, collate)[i].createdAt >= SortRepositories(list, sortBy, collate)[j].createdAt
    ensures sortBy == "pushed" ==> forall i, j :: 0 <= i < j < |list| ==>
              SortRepositories(list, sortBy, collate)[i].pushedAt >= SortRepositories(list, sortBy, collate)[j].pushedAt
    ensures sortBy == "stars" ==> forall i, j :: 0 <= i < j < |list| ==>
              SortRepositories(list, sortBy, collate)[i].stargazersCount
              >= SortRepositories(list, sortBy, collate)[j].stargazersCount
    ensures sortBy == "name" ==> forall i, j :: 0 <= i < j < |list| ==>
              collate(SortRepositories(list, sortBy, collate)[i].name, SortRepositories(list, sortBy, collate)[j].name)
  {
    var k := ParseSortKey(sortBy);
    if k.Some? {
      ComparatorIsTotalPreorder(k.value, collate);
      Sorting.SortSorted(list, Comparator(k.value, collate));
    }
  }

  /** The sort is stable: repositories the comparator ties keep their list order. */
  lemma SortRepositoriesStable(list: seq<Repo>, sortBy: string, collate: (string, string) -> bool, z: Repo)
    requires Sorting.TotalPreorder(collate)
    requires ParseSortKey(sortBy).Some?
    ensures Sorting.TiedWith(SortRepositories(list, sortBy, collate), z, Comparator(ParseSortKey(sortBy).value, collate))
         == Sorting.TiedWith(list, z, Comparator(ParseSortKey(sortBy).value, collate))
  {
    var k := ParseSortKey(sortBy).value;
    ComparatorIsTotalPreorder(k, collate);
    Sorting.SortStable(list, z, Comparator(k, collate));
  }

  /** Of two names the collation strictly orders, the name sort puts the earlier one first, whatever their list order. */
  lemma SortByNameTwo(a: Repo, b: Repo, collate: (string, string) -> bool)
    requires collate(a.name, b.name) && !collate(b.name, a.name)
    ensures SortRepositories([b, a], "name", collate) == [a, b]
    ensures SortRepositories([a, b], "name", collate) == [a, b]
  {
    var le := Comparator(ByName, collate);
    assert [a][1..] == [];
    assert Sorting.Sort([a], le) == [a];
    assert [b, a][1..] == [a];
    assert [a, b][1..] == [b];
    assert Sorting.Sort([b], le) == [b];
  }

  const ProjectCardCount: nat := 12
  const RecentCount: nat := 5

  /** `!repo.fork`. */
  predicate IsSource(r: Repo) { !r.fork }

  /** The non-fork repositories, most starred first, at most twelve (`loadProjectCards`). */
  function ProjectCards(all: seq<Repo>): (top: seq<Repo>)
    ensures |top| <= ProjectCardCount
    ensures forall i :: 0 <= i < |top| ==> !top[i].fork
    ensures multiset(top) <= multiset(all)
  {
    var sources := Seqs.Filter(all, IsSource);
    var ranked := Sorting.Sort(sources, MoreStars);
    var top := Seqs.Take(ranked, ProjectCardCount);
    Seqs.TakeSubMultiset(ranked, ProjectCardCount);
    assert multiset(top) <= multiset(sources);
    assert forall i :: 0 <= i < |top| ==> IsSource(top[i]) by {
      forall i | 0 <= i < |top| ensures IsSource(top[i]) {
        assert multiset(top)[top[i]] > 0;
        assert multiset(sources)[top[i]] > 0;
      }
    }
    top
  }

  /** The project cards are in non-increasing order of stars. */
  lemma ProjectCardsOrdered(all: seq<Repo>)
    ensures forall i, j :: 0 <= i < j < |ProjectCards(all)| ==>
              ProjectCards(all)[i].stargazersCount >= ProjectCards(all)[j].stargazersCount
  {
    assert Sorting.TotalPreorder(MoreStars);
    Sorting.SortSorted(Seqs.Filter(all, IsSource), MoreStars);
  }

  /** There are twelve project cards, or one per non-fork when there are fewer. */
  lemma ProjectCardsLength(all: seq<Repo>)
    ensures |ProjectCards(all)| == if |Seqs.Filter(all, IsSource)| < ProjectCardCount
                                    then |Seqs.Filter(all, IsSource)| else ProjectCardCount
  {
  }

  /** A non-fork left out of the project cards has no more stars than any card shown. */
  lemma ProjectCardsBest(all: seq<Repo>, x: Repo)
    requires !x.fork && multiset(ProjectCards(all))[x] < multiset(all)[x]
    ensures forall i :: 0 <= i < |ProjectCards(all)| ==> ProjectCards(all)[i].stargazersCount >= x.stargazersCount
  {
    var sources := Seqs.Filter(all, IsSource);
    var ranked := Sorting.Sort(sources, MoreStars);
    assert Sorting.TotalPreorder(MoreStars);
    Sorting.SortSorted(sources, MoreStars);
    assert multiset(ranked)[x] == multiset(all)[x];
    Sorting.TakeOfSortedIsBest(ranked, MoreStars, ProjectCardCount, x);
  }

  /** The five most recently updated repositories, newest first (`updateRecentRepositories`). */
  function RecentRepositories(all: seq<Repo>): (recent: seq<Repo>)
    ensures |recent| == if |all| < RecentCount then |all| else RecentCount
    ensures multiset(recent) <= multiset(all)
  {
    var ranked := Sorting.Sort(all, UpdatedLater);
    Seqs.TakeSubMultiset(ranked, RecentCount);
    Seqs.Take(ranked, RecentCount)
  }

  /** The recent list is newest first, and anything left out was updated no later than every entry shown. */
  lemma RecentRepositoriesBest(all: seq<Repo>, x: Repo)
    ensures forall i, j :: 0 <= i < j < |RecentRepositories(all)| ==>
              RecentRepositories(all)[i].updatedAt >= RecentRepositories(all)[j].updatedAt
    ensures multiset(RecentRepositories(all))[x] < multiset(all)[x] ==>
              forall i :: 0 <= i < |RecentRepositories(all)| ==> RecentRepositories(all)[i].updatedAt >= x.updatedAt
  {
    var ranked := Sorting.Sort(all, UpdatedLater);
    assert Sorting.TotalPreorder(UpdatedLater);
    Sorting.SortSorted(all, UpdatedLater);
    if multiset(RecentRepositories(all))[x] < multiset(all)[x] {
      Sorting.TakeOfSortedIsBest(ranked, UpdatedLater, RecentCount, x);
    }
  }
}

=== FILE: wrappers.dfy ===
/** Optional values: a JSON field that may be `null` or absent. */
module Wrappers {

  datatype Option<+T> = None | Some(value: T) {

    /** The value, or `default` when there is none (JavaScript's `x || default` for objects). */
    function GetOr(default: T): T {
      match this
      case Some(v) => v
      case None => default
    }
  }
}
